=== FILE: README.md ===
# angulartics-intercom in Dafny

A model of the Intercom adapter for the angulartics analytics dispatcher
(`lib/angulartics-intercom.js`). The adapter registers five callbacks with
the dispatcher — page track, event track, set-username,
set-user-properties and clear-cookies. Each callback turns a generic
analytics call into at most one call on the vendor's global
`Intercom(...)` function: `trackEvent(name, metadata?)`, `update(data)` or
`shutdown()`.

Every handler is modelled as a total, pure function. Its inputs are:

- `handlePresent`: whether `window.Intercom` is defined;
- an immutable `Settings`: `intercomRequiresAttribute`,
  `intercomHideLauncher` and an optional `eventFormat` with its three flags;
- the call's arguments.

Event track, set-username, set-user-properties and clear-cookies return
`Option<Call>`, with `None` for "no call". Page track returns a
`PageTrackOutcome`: the page-view call, if any, and whether the
hide-launcher update was scheduled.

Files:

- `wrappers.dfy`: module `Wrappers`, the `Option` datatype.
- `js_values.dfy`: module `JsValues`. The property values the adapter sees
  (`VStr`, `VNum`, `VBool`, `VNull`, `VObject`) and their JavaScript
  truthiness. `JsString` gives the text `Array.prototype.join` writes for
  each one: `null` becomes the empty string and every other value goes
  through `ToString`. A property map is `map<string, Value>`, and a
  missing key stands for `undefined`.
- `js_text.dfy`: module `JsText`. `Join` (`Array.prototype.join`) and
  ASCII `toLowerCase`. It also holds the lemmas about lower-casing a
  space-joined token list that the event name needs.
- `intercom.dfy`: module `Intercom`. Settings, the `Call` datatype, the
  five handlers, the deferred hide-launcher callback,
  `getCustomProperties`, and the effect of the `analyticsIntercom`
  directive.
- `intercom_properties.dfy`: module `IntercomProperties`. Lemmas that
  relate handlers to each other or to independent descriptions of their
  results.

Two behaviours of the code are worth stating plainly:

- A custom `user_id` under `intercom` overrides the given id, because
  `angular.extend` applies the custom fields last (line 107).
- Page track returns at lines 27-29 before the hide-launcher scheduling at
  lines 37-43. So the update is scheduled only when the handle is present
  and `intercomHideLauncher` is set. It does not depend on
  `intercomRequiresAttribute`.

Every handler is a pure function of its inputs, and the adapter keeps no
state of its own. Event track is the exception to "same call, same
outcome": when it issues `trackEvent`, it has deleted the consumed keys
from the caller's own properties object, so passing that object again is a
different input. The model
states that second call in `IntercomProperties.ReusedPropertiesAfterTrack`.

## Model

| member | source | states |
|---|---|---|
| Intercom.PageTrack | lib/angulartics-intercom.js:26-45 | A `visit_page` trackEvent whose metadata is `{url: path}` is issued iff the handle is present and `intercomRequiresAttribute` is off. The hide-launcher update is scheduled iff the handle is present and `intercomHideLauncher` is on. |
| Intercom.HideLauncherCallback | lib/angulartics-intercom.js:38-42 | When the vendor API is reported ready, an update whose only field is `hide_default_launcher: true` is issued iff the global handle is defined at that moment. |
| Intercom.NameTokens | lib/angulartics-intercom.js:71-83 | The token list is the optional event type, then the action, then the optional category, then the optional label. Each optional token is present iff its format flag and its property are both truthy. It is then the property's string form and is non-empty. The list has 1 to 4 tokens. |
| Intercom.StripReserved | lib/angulartics-intercom.js:85-89 | The result holds exactly the keys of the properties other than `eventType`, `category`, `label`, `intercom` and `intercomEnabled`, each with its value unchanged. |
| Intercom.Metadata | lib/angulartics-intercom.js:85-93 | The metadata is absent iff every property key is a consumed one. Otherwise it holds exactly the non-consumed keys with their values. |
| Intercom.EventTrack | lib/angulartics-intercom.js:56-96 | A call is made iff the handle is present and the opt-in gate is open: `intercomRequiresAttribute` is off or `intercomEnabled` is truthy. Missing properties are treated as `{}`. The call is then a trackEvent. Its name is the lower-cased event type and a space, the lower-cased action, a space and the lower-cased category, and a space and the lower-cased label; each optional piece appears iff its flag is on and its property is truthy. Its metadata is the filtered properties. |
| Intercom.EffectiveFormat | lib/angulartics-intercom.js:65-69 | Without a configured `eventFormat` every flag is off. Otherwise the configured flags are used. |
| Intercom.OptedIn | lib/angulartics-intercom.js:61-61 | Without `intercomRequiresAttribute` the gate is always open. With it, the gate is open iff `intercomEnabled` is present and truthy. |
| Intercom.EventName | lib/angulartics-intercom.js:95-95 | The name is the token list joined with single spaces and lower-cased. It holds no ASCII capital, and with every flag off it is the lower-cased action. |
| Intercom.EventNameShape | lib/angulartics-intercom.js:71-95 | Joining the token list with single spaces and lower-casing it gives exactly the piece-by-piece spelling of the name: event type, action, category, label, in that order. |
| Intercom.ApplyOptInDirective | lib/angulartics-intercom.js:15-21 | With `intercomRequiresAttribute` set, the evaluated properties (`{}` when there are none) gain `intercomEnabled: true` and keep every other key and value. Otherwise they are left unchanged. |
| Intercom.CustomProperties | lib/angulartics-intercom.js:142-145 | The custom value is always truthy. It is the value under `intercom` when that value is truthy, and the empty object when the key is missing or falsy. |
| Intercom.CustomFields | lib/angulartics-intercom.js:107-107 | An object under `intercom` contributes all its fields except `$$hashKey`, with their values, because `angular.extend` deletes that key from its fresh target. Any other custom value contributes no fields. |
| Intercom.SetUsername | lib/angulartics-intercom.js:105-110 | An update is issued iff the handle is present. It is an object whose keys are exactly `user_id` plus the custom fields, so it never holds `$$hashKey`. Custom values win on a clash, and `user_id` is the given id otherwise. |
| Intercom.SetUserProperties | lib/angulartics-intercom.js:118-122 | An update of the value under `intercom` is issued iff the handle is present, that value is truthy, and it is not the empty object. |
| Intercom.ClearCookies | lib/angulartics-intercom.js:128-132 | `shutdown`, with no payload, is issued iff the handle is present. |
| JsValues.Truthy | lib/angulartics-intercom.js:73-81 | Exactly four values are falsy: `null`, `false`, `0` and the empty string. Every object is truthy, even an empty one. |
| JsValues.PropTruthy | lib/angulartics-intercom.js:61-61 | `props.key` is truthy iff the key is present and its value is truthy. A missing key reads as `undefined`, which is falsy. This is the test at lines 61, 73, 77, 81 and 143. |
| JsValues.NatToDecimal | lib/angulartics-intercom.js:95-95 | The digits of a natural number, with no leading zero. Read back through `DecimalValue`, they give the number itself. |
| JsValues.IntToDecimal | lib/angulartics-intercom.js:95-95 | Inside the join, an integer becomes its decimal form. There is a leading minus sign iff it is negative. The digits after the sign read back through `DecimalValue` as the magnitude. |
| JsValues.JsString | lib/angulartics-intercom.js:95-95 | In a joined array, a string appears as itself and an integer as its decimal form. A truthy value never appears as the empty string. |
| JsText.LowerAscii | lib/angulartics-intercom.js:95-95 | Lower-casing keeps the length and lowers each ASCII capital in place. Every other character is unchanged. |
| JsText.LowerAsciiConcat | lib/angulartics-intercom.js:95-95 | Lower-casing distributes over concatenation. |
| JsText.Join | lib/angulartics-intercom.js:95-95 | `tokens.join(sep)`: the empty list joins to the empty string and a single token to itself. The rows for `JsText.JoinPrepend` and `JsText.JoinAppend` give how unshifting or pushing a token changes the result. |
| JsText.JoinAppend | lib/angulartics-intercom.js:78-95 | Pushing a token onto a non-empty list appends the separator and the token to the joined string. |
| JsText.JoinPrepend | lib/angulartics-intercom.js:74-95 | Unshifting a token onto a non-empty list puts the token and the separator in front of the joined string. |
| IntercomProperties.AbsentHandleNoCall | lib/angulartics-intercom.js:26-132 | Without the vendor handle, page track, event track, set-username, set-user-properties and clear-cookies make no call. Page track also schedules nothing. |
| IntercomProperties.HideLauncherIndependentOfGate | lib/angulartics-intercom.js:31-43 | Scheduling the hide-launcher update does not depend on `intercomRequiresAttribute`, which only gates the page view. |
| IntercomProperties.EventNameWithoutFormat | lib/angulartics-intercom.js:65-71 | With no `eventFormat` configured, or all its flags off, the event name is the lower-cased action. |
| IntercomProperties.EventNameIsLowerCase | lib/angulartics-intercom.js:95-95 | No emitted event name contains an upper-case ASCII letter. |
| IntercomProperties.PayloadFiltering | lib/angulartics-intercom.js:85-95 | The forwarded payload never holds a consumed key. It holds every other property, with its value unchanged, and nothing else. |
| IntercomProperties.PayloadAbsence | lib/angulartics-intercom.js:91-95 | A tracked event carries no payload iff every property key is a consumed one. |
| IntercomProperties.MetadataIgnoresReserved | lib/angulartics-intercom.js:85-93 | Setting any consumed key to any value leaves the forwarded payload unchanged. |
| IntercomProperties.ReusedPropertiesAfterTrack | lib/angulartics-intercom.js:57-95 | After an event track that issued `trackEvent`, the caller's object holds only the non-consumed keys. An early return at line 60 or 62 comes before the deletes and leaves the object untouched. Tracking it again forwards the same payload. Under `intercomRequiresAttribute` the second call makes no call at all. Otherwise its name is just the lower-cased action. |
| IntercomProperties.NameIgnoresOptInMarker | lib/angulartics-intercom.js:73-83 | Setting `intercomEnabled` to any value does not change the name tokens. |
| IntercomProperties.DirectiveOpensGate | lib/angulartics-intercom.js:16-20 | Event track on properties processed by the opt-in directive behaves exactly like event track without the opt-in requirement: same call or no call, same name, same payload. |
| IntercomProperties.SetUsernameUserId | lib/angulartics-intercom.js:107-107 | The merged `user_id` is the custom `user_id` when the custom fields set one, and the given user id otherwise. |
| IntercomProperties.SetUsernameReadsOnlyCustom | lib/angulartics-intercom.js:105-110 | Two property maps that agree on `intercom` give the same set-username call. Nothing else from the properties is read. |
| IntercomProperties.UpdatesAgreeOnCustomFields | lib/angulartics-intercom.js:105-122 | When set-user-properties sends an object, set-username on the same properties sends every one of its fields except `$$hashKey`, with the same value. Set-username never sends `$$hashKey`. |

## Left out

- Angular module and provider registration (lines 9-10, 25) is left out. The `window.Intercom` lookup is the explicit `handlePresent` input. The dispatcher and the vendor SDK are outside the adapter.
- The directive's mechanics are left out: `scope.$eval` of the attribute, the `JSON.stringify` round trip and the in-place attribute rewrite. Only their effect on the property map is modelled, in `ApplyOptInDirective`. Properties that cannot survive a JSON round trip are not distinguished. If `scope.$eval` yields a truthy value that is not an object (a string, say), line 19 throws a TypeError in strict mode (line 2). The model's `Option<PropMap>` input cannot express that case.
- The `angulartics.waitForVendorApi("Intercom", 1000, …)` call at line 38 is left out, including when or whether it runs the callback. It is a library helper whose code is not in this file. Page track only reports whether that call is made. `HideLauncherCallback` models what the callback does once it runs.
- The in-place `delete` on the caller's properties object (lines 85-89) is modelled functionally. Event track does not return the changed object. After an event track that issued `trackEvent`, a caller that reuses the object passes `StripReserved` of it next time, and that next call can differ: no call under the opt-in requirement, and no optional name tokens. `IntercomProperties.ReusedPropertiesAfterTrack` states that second call.
- `JSON.stringify(properties) === '{}'` (line 91) also treats objects holding only `undefined` or function values as empty. The model has no such values, so emptiness is "no keys".
- Intercom.EventTrack: lower-casing is ASCII only. Non-ASCII capitals are left unchanged, while JavaScript's `toLowerCase` lowers them too.
- JsValues.JsString: an object renders as `[object Object]` even when it has its own `toString` field that is not a function, such as `{toString: "x"}`. For such an object used as a name token, `join` at line 95 throws a TypeError and no `trackEvent` is issued, but the model issues one. Numbers are integers. Fractions, exponents, `NaN` and `-0` are not modelled, and neither are arrays, functions or `undefined` values inside property maps.
- Event track's `properties` is a map or missing. A truthy non-object argument (a string, say) is not modelled.
- Set-username and set-user-properties take a property map. With `properties` undefined the source throws while reading `properties.intercom` (line 143). That case is not modelled.
- Intercom.CustomFields: follows `angular.extend` as in AngularJS 1.4 and later, which skips a source that is not an object. AngularJS 1.2 would also copy a string's characters under index keys. The AngularJS version is not pinned by the adapter.
- Intercom.SetUserProperties: treats any key as making the custom object non-empty. `angular.equals({}, x)` also ignores keys starting with `$` and function-valued keys. `angular.equals` is not part of this model.

=== FILE: intercom.dfy ===
/** The Intercom adapter for the angulartics analytics dispatcher.

    Each dispatcher callback (page track, event track, set-username,
    set-user-properties, clear-cookies) is modelled as a total function
    from the handler's inputs to at most one call on the vendor's global
    `Intercom(...)` function. Whether that global is defined is an explicit
    input, `handlePresent`, and the provider settings are an immutable
    `Settings` value. */
module Intercom {
  import opened Wrappers
  import opened JsValues
  import opened JsText

  /** `settings.eventFormat`: which optional properties are folded into an
      event name. */
  datatype EventFormat = EventFormat(eventTypeOn: bool, categoryOn: bool, labelOn: bool)

  /** The provider settings the handlers read. `eventFormat` is `None`
      when the host application did not configure one. */
  datatype Settings = Settings(
    requiresAttribute: bool,
    hideLauncher: bool,
    eventFormat: Option<EventFormat>)

  /** One call on the vendor widget: `Intercom('trackEvent', name, metadata)`,
      `Intercom('update', data)` or `Intercom('shutdown')`. */
  datatype Call =
    | TrackEvent(name: string, metadata: Option<PropMap>)
    | Update(data: Value)
    | Shutdown

  /** The format used when none is configured: every flag off. */
  const NoFlags: EventFormat := EventFormat(false, false, false)

  /** `settings.eventFormat || {eventType: false, category: false, label: false}`. */
  function EffectiveFormat(settings: Settings): (r: EventFormat)
    ensures settings.eventFormat.None? ==> !r.eventTypeOn && !r.categoryOn && !r.labelOn
    ensures settings.eventFormat.Some? ==> r == settings.eventFormat.value
  {
    settings.eventFormat.GetOr(NoFlags)
  }

  /** The keys event track consumes and never forwards. */
  const ReservedKeys: set<string> := {"eventType", "category", "label", "intercom", "intercomEnabled"}

  const EmptyObject: Value := VObject(map[])

  /** The bookkeeping key `angular.extend` removes from the object it
      extends when that object did not carry one before. */
  const HashKey: string := "$$hashKey"

  // ---------------------------------------------------------------------
  // Page track

  /** What a page track does: the page-view call it issues now, if any, and
      whether it schedules the deferred hide-launcher update. */
  datatype PageTrackOutcome = PageTrackOutcome(call: Option<Call>, hideLauncherScheduled: bool)

  /** Page track: a `visit_page` event carrying the path as its `url`,
      unless tracking requires the opt-in attribute; independently, the
      hide-launcher update is scheduled when that setting is on. Nothing
      happens without the vendor handle. */
  function PageTrack(handlePresent: bool, settings: Settings, path: string): (r: PageTrackOutcome)
    ensures r.call.Some? <==> handlePresent && !settings.requiresAttribute
    ensures r.call.Some? ==> r.call.value.TrackEvent? && r.call.value.name == "visit_page"
    ensures r.call.Some? ==> r.call.value.metadata == Some(map["url" := VStr(path)])
    ensures r.hideLauncherScheduled <==> handlePresent && settings.hideLauncher
  {
    if !handlePresent then PageTrackOutcome(None, false)
    else
      var call := if settings.requiresAttribute then None
                  else Some(TrackEvent("visit_page", Some(map["url" := VStr(path)])));
      PageTrackOutcome(call, settings.hideLauncher)
  }

  /** The scheduled callback once the vendor API is reported ready: hide the
      default launcher, provided the global handle is defined at that time. */
  function HideLauncherCallback(handlePresent: bool): (r: Option<Call>)
    ensures r.Some? <==> handlePresent
    ensures r.Some? ==> r.value.Update? && r.value.data.VObject?
    ensures r.Some? ==> r.value.data.fields.Keys == {"hide_default_launcher"}
    ensures r.Some? ==> r.value.data.fields["hide_default_launcher"] == VBool(true)
  {
    if handlePresent then Some(Update(VObject(map["hide_default_launcher" := VBool(true)])))
    else None
  }

  // ---------------------------------------------------------------------
  // Event track

  /** The opt-in gate: with `intercomRequiresAttribute` set, an event is
      tracked only when its properties carry a truthy `intercomEnabled`. */
  predicate OptedIn(settings: Settings, props: PropMap)
    ensures !settings.requiresAttribute ==> OptedIn(settings, props)
    ensures settings.requiresAttribute ==> (OptedIn(settings, props) <==> PropTruthy(props, "intercomEnabled"))
  {
    !settings.requiresAttribute || PropTruthy(props, "intercomEnabled")
  }

  /** The name token `props[key]` contributes: one token when both the
      format flag and the property are truthy, none otherwise. */
  function OptionalToken(flag: bool, props: PropMap, key: string): (r: seq<string>)
    ensures |r| <= 1
    ensures |r| == 1 <==> flag && PropTruthy(props, key)
    ensures |r| == 1 ==> r[0] == JsString(props[key]) && r[0] != ""
  {
    if flag && PropTruthy(props, key) then [JsString(props[key])] else []
  }

  /** The event name's tokens, built as the handler builds them: start from
      `[action]`, put `eventType` in front, then push `category` and
      `label` on the back, each only when enabled and truthy. */
  function NameTokens(action: string, props: PropMap, format: EventFormat): (r: seq<string>)
    ensures r == OptionalToken(format.eventTypeOn, props, "eventType") + [action]
                 + OptionalToken(format.categoryOn, props, "category")
                 + OptionalToken(format.labelOn, props, "label")
    ensures 1 <= |r| <= 4
  {
    var tokens := [action];
    var tokens := if PropTruthy(props, "eventType") && format.eventTypeOn
                  then [JsString(props["eventType"])] + tokens else tokens;
    var tokens := if PropTruthy(props, "category") && format.categoryOn
                  then tokens + [JsString(props["category"])] else tokens;
    var tokens := if PropTruthy(props, "label") && format.labelOn
                  then tokens + [JsString(props["label"])] else tokens;
    tokens
  }

  /** The emitted event name: the tokens joined by single spaces, then
      lower-cased. */
  function EventName(action: string, props: PropMap, format: EventFormat): (r: string)
    ensures forall i :: 0 <= i < |r| ==> !IsUpperAscii(r[i])
    ensures format == NoFlags ==> r == LowerAscii(action)
  {
    LowerAscii(Join(NameTokens(action, props, format), " "))
  }

  /** Whether `props[key]` contributes a name token under `flag`. */
  predicate Contributes(flag: bool, props: PropMap, key: string) {
    flag && PropTruthy(props, key)
  }

  /** The lower-cased text of `props[key]`. */
  function LoweredProp(props: PropMap, key: string): string
    requires key in props
  {
    LowerAscii(JsString(props[key]))
  }

  /** The event name written out piece by piece: the lower-cased event type
      and a space, the lower-cased action, then a space and the lower-cased
      category, then a space and the lower-cased label, each optional piece
      present exactly when it contributes a token. */
  function SpelledName(action: string, props: PropMap, format: EventFormat): string {
    (if Contributes(format.eventTypeOn, props, "eventType") then LoweredProp(props, "eventType") + " " else "")
    + LowerAscii(action)
    + (if Contributes(format.categoryOn, props, "category") then " " + LoweredProp(props, "category") else "")
    + (if Contributes(format.labelOn, props, "label") then " " + LoweredProp(props, "label") else "")
  }

  /** The emitted name is the piece-by-piece spelling: the token order is
      event type, action, category, label, with single spaces between and
      every piece lower-cased. */
  lemma EventNameShape(action: string, props: PropMap, format: EventFormat)
    ensures EventName(action, props, format) == SpelledName(action, props, format)
  {
    var et := OptionalToken(format.eventTypeOn, props, "eventType");
    var cat := OptionalToken(format.categoryOn, props, "category");
    var lab := OptionalToken(format.labelOn, props, "label");
    LowerJoinTokens(et, action, cat, lab);
    assert LoweredPrefix(et)
        == (if Contributes(format.eventTypeOn, props, "eventType") then LoweredProp(props, "eventType") + " " else "");
    assert LoweredSuffix(cat)
        == (if Contributes(format.categoryOn, props, "category") then " " + LoweredProp(props, "category") else "");
    assert LoweredSuffix(lab)
        == (if Contributes(format.labelOn, props, "label") then " " + LoweredProp(props, "label") else "");
  }

  /** The property map with the consumed keys deleted. */
  function StripReserved(props: PropMap): (r: PropMap)
    ensures forall k :: k in r <==> k in props && k !in ReservedKeys
    ensures forall k :: k in r ==> r[k] == props[k]
  {
    props - ReservedKeys
  }

  /** The metadata argument of the `trackEvent` call: absent exactly when
      every key of the properties is a consumed one, otherwise the
      properties without the consumed keys. */
  function Metadata(props: PropMap): (r: Option<PropMap>)
    ensures r.None? <==> props.Keys <= ReservedKeys
    ensures r.Some? ==> forall k :: k in r.value <==> k in props && k !in ReservedKeys
    ensures r.Some? ==> forall k :: k in r.value ==> r.value[k] == props[k]
  {
    var rest := StripReserved(props);
    if |rest| == 0 then
      assert rest.Keys == {};
      None
    else
      assert rest.Keys != {} by {
        var k :| k in rest;
      }
      Some(rest)
  }

  /** Event track: no call without the vendor handle or when the opt-in
      gate is closed; otherwise exactly one `trackEvent` whose name is the
      piece-by-piece spelling and whose metadata is the filtered
      properties. Missing properties mean `{}`. */
  function EventTrack(handlePresent: bool, settings: Settings, action: string,
                      properties: Option<PropMap>): (r: Option<Call>)
    ensures r.Some? <==> handlePresent && OptedIn(settings, properties.GetOr(map[]))
    ensures r.Some? ==> r.value.TrackEvent?
    ensures r.Some? ==> r.value.name == SpelledName(action, properties.GetOr(map[]), EffectiveFormat(settings))
    ensures r.Some? ==> r.value.metadata == Metadata(properties.GetOr(map[]))
  {
    var props := properties.GetOr(map[]);
    if !handlePresent then None
    else if settings.requiresAttribute && !PropTruthy(props, "intercomEnabled") then None
    else
      var format := EffectiveFormat(settings);
      EventNameShape(action, props, format);
      Some(TrackEvent(LowerAscii(Join(NameTokens(action, props, format), " ")), Metadata(props)))
  }

  /** The opt-in directive's effect on an element's analytics properties:
      when the setting requires the attribute, the evaluated properties
      (`{}` when the expression yields nothing) gain `intercomEnabled: true`;
      otherwise they are left as they are. */
  function ApplyOptInDirective(settings: Settings, evaluated: Option<PropMap>): (r: Option<PropMap>)
    ensures !settings.requiresAttribute ==> r == evaluated
    ensures settings.requiresAttribute ==> r.Some? && r.value.Keys == evaluated.GetOr(map[]).Keys + {"intercomEnabled"}
    ensures settings.requiresAttribute ==> r.Some? && r.value["intercomEnabled"] == VBool(true)
    ensures settings.requiresAttribute ==>
      r.Some? && forall k :: k in evaluated.GetOr(map[]) && k != "intercomEnabled" ==>
        r.value[k] == evaluated.GetOr(map[])[k]
  {
    if settings.requiresAttribute then Some(evaluated.GetOr(map[])["intercomEnabled" := VBool(true)])
    else evaluated
  }

  // ---------------------------------------------------------------------
  // Set-username and set-user-properties

  /** `properties.intercom || {}`: the value under `intercom` when it is
      truthy, the empty object otherwise. */
  function CustomProperties(props: PropMap): (r: Value)
    ensures Truthy(r)
    ensures PropTruthy(props, "intercom") ==> r == props["intercom"]
    ensures "intercom" !in props ==> r == EmptyObject
    ensures r == EmptyObject || ("intercom" in props && r == props["intercom"])
  {
    if PropTruthy(props, "intercom") then props["intercom"] else EmptyObject
  }

  /** The fields the custom value leaves in `angular.extend({}, ...)`: the
      own fields of an object except `$$hashKey`, which extend deletes from
      its fresh target afterwards; nothing from any other value. */
  function CustomFields(props: PropMap): (r: PropMap)
    ensures HashKey !in r
    ensures "intercom" in props && props["intercom"].VObject? ==>
      forall k :: k in r <==> k in props["intercom"].fields && k != HashKey
    ensures "intercom" in props && props["intercom"].VObject? ==>
      forall k :: k in r ==> r[k] == props["intercom"].fields[k]
    ensures !("intercom" in props && props["intercom"].VObject?) ==> r == map[]
  {
    match CustomProperties(props)
    case VObject(fields) => fields - {HashKey}
    case _ => map[]
  }

  /** `m` is `{user_id: userId}` extended with `custom`: exactly the keys of
      both, custom values win, and `user_id` keeps `userId` only when the
      custom fields do not set it. */
  ghost predicate MergedUserData(m: PropMap, userId: string, custom: PropMap) {
    && m.Keys == custom.Keys + {"user_id"}
    && (forall k :: k in custom ==> m[k] == custom[k])
    && ("user_id" !in custom ==> m["user_id"] == VStr(userId))
  }

  /** Set-username: with the vendor handle, one `update` of `user_id`
      merged with the custom fields under `intercom`. */
  function SetUsername(handlePresent: bool, userId: string, props: PropMap): (r: Option<Call>)
    ensures r.Some? <==> handlePresent
    ensures r.Some? ==> r.value.Update? && r.value.data.VObject?
    ensures r.Some? ==> MergedUserData(r.value.data.fields, userId, CustomFields(props))
    ensures r.Some? ==> HashKey !in r.value.data.fields
  {
    if handlePresent then Some(Update(VObject(map["user_id" := VStr(userId)] + CustomFields(props))))
    else None
  }

  /** Set-user-properties: with the vendor handle, one `update` carrying the
      custom value, unless that value is the empty object. */
  function SetUserProperties(handlePresent: bool, props: PropMap): (r: Option<Call>)
    ensures r.Some? <==> handlePresent && PropTruthy(props, "intercom") && props["intercom"] != EmptyObject
    ensures r.Some? ==> r.value == Update(props["intercom"])
  {
    var custom := CustomProperties(props);
    if handlePresent && custom != EmptyObject then Some(Update(custom)) else None
  }

  // ---------------------------------------------------------------------
  // Clear-cookies

  /** Clear-cookies: `shutdown`, with no payload, when the handle exists. */
  function ClearCookies(handlePresent: bool): (r: Option<Call>)
    ensures r.Some? <==> handlePresent
    ensures r.Some? ==> r.value == Shutdown
  {
    if handlePresent then Some(Shutdown) else None
  }
}

=== FILE: intercom_properties.dfy ===
/** Properties of the Intercom adapter that relate several handlers, several
    calls of one handler, or a handler and an independent description of
    its result. */
module IntercomProperties {
  import opened Wrappers
  import opened JsValues
  import opened JsText
  import opened Intercom

  /** Without the vendor handle no handler calls the vendor, whatever the
      settings and arguments, and page track schedules nothing. */
  lemma AbsentHandleNoCall(settings: Settings, path: string, action: string,
                           properties: Option<PropMap>, userId: string, props: PropMap)
    ensures PageTrack(false, settings, path) == PageTrackOutcome(None, false)
    ensures EventTrack(false, settings, action, properties) == None
    ensures SetUsername(false, userId, props) == None
    ensures SetUserProperties(false, props) == None
    ensures ClearCookies(false) == None
  {
  }

  /** Whether page track schedules the hide-launcher update does not depend
      on whether it issued the page view. */
  lemma HideLauncherIndependentOfGate(handlePresent: bool, settings: Settings, path: string, gate: bool)
    ensures PageTrack(handlePresent, settings, path).hideLauncherScheduled
         == PageTrack(handlePresent, settings.(requiresAttribute := gate), path).hideLauncherScheduled
  {
  }

  // ---------------------------------------------------------------------
  // The event name

  /** With every format flag off, or no format configured, the event name
      is just the lower-cased action. */
  lemma EventNameWithoutFormat(handlePresent: bool, settings: Settings, action: string,
                               properties: Option<PropMap>)
    requires settings.eventFormat == None || settings.eventFormat == Some(NoFlags)
    requires handlePresent && OptedIn(settings, properties.GetOr(map[]))
    ensures EventTrack(handlePresent, settings, action, properties).value.name == LowerAscii(action)
  {
  }

  /** The event name never contains an upper-case ASCII letter. */
  lemma EventNameIsLowerCase(handlePresent: bool, settings: Settings, action: string,
                             properties: Option<PropMap>)
    requires EventTrack(handlePresent, settings, action, properties).Some?
    ensures forall i :: 0 <= i < |EventTrack(handlePresent, settings, action, properties).value.name| ==>
      !IsUpperAscii(EventTrack(handlePresent, settings, action, properties).value.name[i])
  {
  }

  // ---------------------------------------------------------------------
  // The metadata payload

  /** The forwarded payload never holds a consumed key, and holds every
      other property with its value unchanged. */
  lemma PayloadFiltering(handlePresent: bool, settings: Settings, action: string,
                         properties: PropMap, name: string, payload: PropMap)
    requires EventTrack(handlePresent, settings, action, Some(properties)) == Some(TrackEvent(name, Some(payload)))
    ensures forall k :: k in ReservedKeys ==> k !in payload
    ensures forall k :: k in properties && k !in ReservedKeys ==> k in payload && payload[k] == properties[k]
    ensures payload.Keys <= properties.Keys
  {
  }

  /** The payload is absent exactly when every property is a consumed key. */
  lemma PayloadAbsence(handlePresent: bool, settings: Settings, action: string, properties: Option<PropMap>)
    requires EventTrack(handlePresent, settings, action, properties).Some?
    ensures EventTrack(handlePresent, settings, action, properties).value.metadata.None?
        <==> properties.GetOr(map[]).Keys <= ReservedKeys
  {
  }

  /** Setting a consumed key does not change the forwarded payload. */
  lemma MetadataIgnoresReserved(props: PropMap, k: string, v: Value)
    requires k in ReservedKeys
    ensures Metadata(props[k := v]) == Metadata(props)
  {
    assert StripReserved(props[k := v]) == StripReserved(props);
  }

  /** An event track that issued `trackEvent` has deleted the consumed keys
      from the caller's own object, so passing that object to event track
      again (with any action) passes `StripReserved(props)`. The second call
      then forwards the same payload, but under the opt-in requirement it
      makes no call at all, and otherwise its name has lost every optional
      token. */
  lemma ReusedPropertiesAfterTrack(handlePresent: bool, settings: Settings, first: string, action: string, props: PropMap)
    requires EventTrack(handlePresent, settings, first, Some(props)).Some?
    ensures settings.requiresAttribute ==>
      EventTrack(handlePresent, settings, action, Some(StripReserved(props))) == None
    ensures !settings.requiresAttribute ==>
      EventTrack(handlePresent, settings, action, Some(StripReserved(props))).value.name == LowerAscii(action)
    ensures EventTrack(handlePresent, settings, action, Some(StripReserved(props))).Some? ==>
      EventTrack(handlePresent, settings, action, Some(StripReserved(props))).value.metadata == Metadata(props)
  {
    var rest := StripReserved(props);
    assert StripReserved(rest) == rest;
    assert !PropTruthy(rest, "eventType") && !PropTruthy(rest, "category") && !PropTruthy(rest, "label");
    assert LowerAscii(action) + "" + "" == LowerAscii(action);
  }

  // ---------------------------------------------------------------------
  // The opt-in directive

  /** Marking `intercomEnabled` changes no name token. */
  lemma NameIgnoresOptInMarker(action: string, props: PropMap, format: EventFormat, v: Value)
    ensures NameTokens(action, props["intercomEnabled" := v], format) == NameTokens(action, props, format)
  {
  }

  /** The directive makes a gated event track behave like an ungated one:
      with the handle present the event is always tracked, with the same
      name and payload as if no opt-in were required. */
  lemma DirectiveOpensGate(handlePresent: bool, settings: Settings, action: string,
                           evaluated: Option<PropMap>)
    ensures EventTrack(handlePresent, settings, action, ApplyOptInDirective(settings, evaluated))
         == EventTrack(handlePresent, settings.(requiresAttribute := false), action, evaluated)
  {
    if settings.requiresAttribute {
      var props := evaluated.GetOr(map[]);
      NameIgnoresOptInMarker(action, props, EffectiveFormat(settings), VBool(true));
      MetadataIgnoresReserved(props, "intercomEnabled", VBool(true));
    }
  }

  // ---------------------------------------------------------------------
  // Set-username and set-user-properties

  /** The merged `user_id` is the custom one when the custom fields set it,
      and the given user id otherwise. */
  lemma SetUsernameUserId(userId: string, props: PropMap)
    ensures SetUsername(true, userId, props).value.data.fields["user_id"]
         == if "user_id" in CustomFields(props) then CustomFields(props)["user_id"] else VStr(userId)
  {
  }

  /** Set-username reads nothing of the properties but `intercom`. */
  lemma SetUsernameReadsOnlyCustom(handlePresent: bool, userId: string, props: PropMap, other: PropMap)
    requires ("intercom" in props <==> "intercom" in other)
    requires "intercom" in props ==> props["intercom"] == other["intercom"]
    ensures SetUsername(handlePresent, userId, props) == SetUsername(handlePresent, userId, other)
  {
  }

  /** Set-user-properties and set-username agree on the custom fields: when
      the former sends an object, the latter sends every one of its fields
      except `$$hashKey`, which `angular.extend` strips from its target and
      set-user-properties forwards as is. */
  lemma UpdatesAgreeOnCustomFields(userId: string, props: PropMap)
    requires SetUserProperties(true, props).Some?
    requires SetUserProperties(true, props).value.data.VObject?
    ensures HashKey !in SetUsername(true, userId, props).value.data.fields
    ensures forall k :: k in SetUserProperties(true, props).value.data.fields && k != HashKey ==>
      k in SetUsername(true, userId, props).value.data.fields
      && SetUsername(true, userId, props).value.data.fields[k] == SetUserProperties(true, props).value.data.fields[k]
  {
  }
}

=== FILE: js_text.dfy ===
/** The two string operations the event name is built with:
    `Array.prototype.join` and `String.prototype.toLowerCase`, the latter
    restricted to ASCII. */
module JsText {

  predicate IsUpperAscii(c: char) {
    'A' <= c <= 'Z'
  }

  /** ASCII lower-casing of one character; every other character is kept. */
  function LowerChar(c: char): (r: char)
    ensures !IsUpperAscii(r)
    ensures !IsUpperAscii(c) ==> r == c
    ensures IsUpperAscii(c) ==> r as int == c as int + 32
  {
    if IsUpperAscii(c) then (c as int + 32) as char else c
  }

  /** ASCII `toLowerCase`: the same length, each character lowered. */
  function LowerAscii(s: string): (r: string)
    ensures |r| == |s|
    ensures forall i :: 0 <= i < |s| ==> r[i] == LowerChar(s[i])
    decreases |s|
  {
    if |s| == 0 then "" else [LowerChar(s[0])] + LowerAscii(s[1..])
  }

  /** Lower-casing is applied character by character, so it distributes
      over concatenation. */
  lemma LowerAsciiConcat(a: string, b: string)
    ensures LowerAscii(a + b) == LowerAscii(a) + LowerAscii(b)
  {
  }

  /** `tokens.join(sep)`: the tokens in order with `sep` between
      neighbours; the empty list joins to the empty string. */
  function Join(tokens: seq<string>, sep: string): (r: string)
    ensures |tokens| == 0 ==> r == ""
    ensures |tokens| == 1 ==> r == tokens[0]
    decreases |tokens|
  {
    if |tokens| == 0 then ""
    else if |tokens| == 1 then tokens[0]
    else tokens[0] + sep + Join(tokens[1..], sep)
  }

  /** Putting a token in front of a non-empty list puts it, and one
      separator, in front of the joined string. */
  lemma JoinPrepend(t: string, tokens: seq<string>, sep: string)
    requires |tokens| > 0
    ensures Join([t] + tokens, sep) == t + sep + Join(tokens, sep)
  {
  }

  /** Appending a token to a non-empty list appends one separator and the
      token to the joined string. */
  lemma {:induction false} JoinAppend(tokens: seq<string>, t: string, sep: string)
    requires |tokens| > 0
    ensures Join(tokens + [t], sep) == Join(tokens, sep) + sep + t
    decreases |tokens|
  {
    if |tokens| == 1 {
      assert (tokens + [t])[1..] == [t];
    } else {
      assert (tokens + [t])[1..] == tokens[1..] + [t];
      JoinAppend(tokens[1..], t, sep);
    }
  }

  // ---------------------------------------------------------------------
  // Space-joined token lists with at most one token added at either end

  /** The lower-cased text an appended token list of length at most one
      adds to a space-joined string: a space and the token, or nothing. */
  function LoweredSuffix(t: seq<string>): string
    requires |t| <= 1
  {
    if |t| == 1 then " " + LowerAscii(t[0]) else ""
  }

  /** The lower-cased text a prepended token list of length at most one
      adds to a space-joined string: the token and a space, or nothing. */
  function LoweredPrefix(t: seq<string>): string
    requires |t| <= 1
  {
    if |t| == 1 then LowerAscii(t[0]) + " " else ""
  }

  /** Lower-casing leaves the separating space alone. */
  lemma LowerAroundSpace(s: string)
    ensures LowerAscii(" " + s) == " " + LowerAscii(s)
    ensures LowerAscii(s + " ") == LowerAscii(s) + " "
  {
  }

  /** Appending at most one token to a non-empty list, then lower-casing. */
  lemma LowerJoinPush(tokens: seq<string>, t: seq<string>)
    requires |tokens| > 0 && |t| <= 1
    ensures LowerAscii(Join(tokens + t, " ")) == LowerAscii(Join(tokens, " ")) + LoweredSuffix(t)
  {
    if |t| == 1 {
      assert tokens + t == tokens + [t[0]];
      JoinAppend(tokens, t[0], " ");
      LowerAsciiConcat(Join(tokens, " "), " " + t[0]);
      LowerAroundSpace(t[0]);
    } else {
      assert tokens + t == tokens;
    }
  }

  /** Putting at most one token in front of a non-empty list, then
      lower-casing. */
  lemma LowerJoinUnshift(t: seq<string>, tokens: seq<string>)
    requires |tokens| > 0 && |t| <= 1
    ensures LowerAscii(Join(t + tokens, " ")) == LoweredPrefix(t) + LowerAscii(Join(tokens, " "))
  {
    if |t| == 1 {
      assert t + tokens == [t[0]] + tokens;
      JoinPrepend(t[0], tokens, " ");
      LowerAsciiConcat(t[0] + " ", Join(tokens, " "));
      LowerAroundSpace(t[0]);
    } else {
      assert t + tokens == tokens;
    }
  }

  /** Regrouping a four-part concatenation. */
  lemma ConcatRegroup(p: string, a: string, c: string, l: string)
    ensures p + (a + c + l) == p + a + c + l
  {
  }

  /** The lower-cased, space-joined list `[action] + cat + lab`, where `cat`
      and `lab` each hold at most one token. */
  lemma LowerJoinCore(action: string, cat: seq<string>, lab: seq<string>)
    requires |cat| <= 1 && |lab| <= 1
    ensures LowerAscii(Join([action] + cat + lab, " "))
         == LowerAscii(action) + LoweredSuffix(cat) + LoweredSuffix(lab)
  {
    LowerJoinPush([action], cat);
    LowerJoinPush([action] + cat, lab);
  }

  /** The lower-cased, space-joined list `et + [action] + cat + lab`, where
      each of `et`, `cat` and `lab` holds at most one token, group by group. */
  lemma LowerJoinTokens(et: seq<string>, action: string, cat: seq<string>, lab: seq<string>)
    requires |et| <= 1 && |cat| <= 1 && |lab| <= 1
    ensures LowerAscii(Join(et + [action] + cat + lab, " "))
         == LoweredPrefix(et) + LowerAscii(action) + LoweredSuffix(cat) + LoweredSuffix(lab)
  {
    var core := [action] + cat + lab;
    LowerJoinCore(action, cat, lab);
    assert et + [action] + cat + lab == et + core;
    LowerJoinUnshift(et, core);
    ConcatRegroup(LoweredPrefix(et), LowerAscii(action), LoweredSuffix(cat), LoweredSuffix(lab));
  }
}

=== FILE: js_values.dfy ===
/** The slice of JavaScript values the adapter touches: the values found in
    analytics property maps, their truthiness, and the string each one
    becomes when an array of them is joined. */
module JsValues {

  /** A property value. A missing key plays the role of `undefined`;
      numbers are integers (see README for what that leaves out). */
  datatype Value =
    | VStr(s: string)
    | VNum(n: int)
    | VBool(b: bool)
    | VNull
    | VObject(fields: map<string, Value>)

  /** A property map as handed over by the analytics dispatcher. */
  type PropMap = map<string, Value>

  /** JavaScript truthiness: the empty string, zero, `false` and `null` are
      falsy; every object, even an empty one, is truthy. */
  predicate Truthy(v: Value)
    ensures Truthy(v) <==> !(v == VNull || v == VBool(false) || v == VNum(0) || v == VStr(""))
  {
    match v
    case VStr(s) => s != ""
    case VNum(n) => n != 0
    case VBool(b) => b
    case VNull => false
    case VObject(_) => true
  }

  /** `props.key` is truthy: the key is present and its value is truthy. */
  predicate PropTruthy(props: PropMap, key: string)
    ensures key !in props ==> !PropTruthy(props, key)
    ensures key in props ==> (PropTruthy(props, key) <==> Truthy(props[key]))
  {
    key in props && Truthy(props[key])
  }

  predicate IsDigit(c: char) {
    '0' <= c <= '9'
  }

  function DigitChar(d: nat): (c: char)
    requires d < 10
    ensures IsDigit(c)
    ensures c as int - '0' as int == d
  {
    (('0' as int) + d) as char
  }

  /** The number a string of decimal digits denotes, most significant digit
      first; the empty string denotes zero. */
  function DecimalValue(s: string): nat
    requires forall i :: 0 <= i < |s| ==> IsDigit(s[i])
    decreases |s|
  {
    if |s| == 0 then 0
    else
      var last := s[|s| - 1];
      assert IsDigit(last);
      DecimalValue(s[..|s| - 1]) * 10 + (last as int - '0' as int)
  }

  /** Decimal digits of a natural number, most significant first, with no
      leading zero; read back as a number they give `n`. */
  function NatToDecimal(n: nat): (r: string)
    ensures |r| >= 1
    ensures forall i :: 0 <= i < |r| ==> IsDigit(r[i])
    ensures r[0] == '0' ==> n == 0
    ensures DecimalValue(r) == n
    decreases n
  {
    if n < 10 then [DigitChar(n)]
    else
      var high := NatToDecimal(n / 10);
      var r := high + [DigitChar(n % 10)];
      assert r[..|r| - 1] == high;
      r
  }

  /** The decimal form of an integer, as `String(n)` renders it: a minus sign
      for negative numbers, then the digits of the magnitude. */
  function IntToDecimal(n: int): (r: string)
    ensures |r| >= 1
    ensures n >= 0 ==> forall i :: 0 <= i < |r| ==> IsDigit(r[i])
    ensures n >= 0 ==> DecimalValue(r) == n
    ensures n < 0 <==> r[0] == '-'
    ensures n < 0 ==> forall i :: 1 <= i < |r| ==> IsDigit(r[i])
    ensures n < 0 ==> DecimalValue(r[1..]) == -n
  {
    if n < 0 then
      var digits := NatToDecimal(-n);
      assert ("-" + digits)[1..] == digits;
      "-" + digits
    else NatToDecimal(n)
  }

  /** The string a value becomes when an array holding it is joined:
      `Array.prototype.join` renders `null` as the empty string and applies
      `ToString` to every other element. */
  function JsString(v: Value): (r: string)
    ensures v.VStr? ==> r == v.s
    ensures v.VNum? ==> r == IntToDecimal(v.n)
    ensures Truthy(v) ==> |r| > 0
  {
    match v
    case VStr(s) => s
    case VNum(n) => IntToDecimal(n)
    case VBool(b) => if b then "true" else "false"
    case VNull => ""
    case VObject(_) => "[object Object]"
  }
}

=== FILE: wrappers.dfy ===
/** The Some/None datatype used for "maybe absent" values: an optional
    metadata payload, an optional call to the vendor widget, an optional
    argument the caller may leave out. */
module Wrappers {

  datatype Option<+T> = None | Some(value: T) {

    /** The encapsulated value, or `default` when there is none. */
    function GetOr(default: T): (r: T)
      ensures Some? ==> r == value
      ensures None? ==> r == default
    {
      match this
      case Some(v) => v
      case None => default
    }
  }
}
